=== FILE: README.md ===
# Installed-modules catalogue report, modelled in Dafny

`produce_installed_modules_list.py` walks the module tree of an HPC system
(`/apps/modules/<category>/<application>/<version>`) and prints one markdown
table per category. An application whose first version is a module file gets
a row with its versions and that file's help text; when the first version is
not a file it gets a `not a file` line instead, and an application without
versions prints nothing. The script then draws a pie chart of how many
applications each category holds, counting every application, including
those that print nothing.

This project models the script's logic as pure functions over a file system
that is handed to it as three functions (`Aggregator.FileSystem`):

- `ls(dir)`: what `list_directory_content(dir)` returns (lines 35-40). That
  function splits the string `"ls -1 " + dir` at whitespace with Python's
  `str.split()` and runs the pieces with `subprocess.Popen`, without a shell.
  For a path without whitespace this is the standard output of `ls -1 dir`,
  up to newline translation: `universal_newlines=True` turns `\r` and `\r\n`
  into `\n`, which `str.splitlines` treats alike anyway;
  for a path with whitespace `ls` gets several arguments, and the oracle
  stands for whatever the function then returns;
- `isFile(path)`: the answer of `os.path.isfile(path)`;
- `read(path)`: the text of `open(path).read()`.

Modules, one per part of the script:

- `Catalog` (`catalog.dfy`): the `--theme` choices, the fourteen categories, and
  each category's root directory with the extra `/compiler` segment for
  `compilers`.
- `HelpText` (`help_text.dfy`): the regular expression `^set help_text(.*)` in
  multi-line mode, the substitution that deletes everything through the last
  `"\t`, and the `missing description` placeholder.
- `Aggregator` (`aggregator.dfy`): the main loop. It records one count per
  category from the raw root listing, then gives each application a row, a
  `not a file` diagnostic, or nothing.
- `PieChart` (`pie_chart.dfy`): deletion of the zero-count categories from the
  parallel label and count lists.
- `Findings` (`findings.dfy`): the main loop exactly as written, including the
  NameError described under Findings.
- `Program` (`program.dfy`): one run, from theme to printed report and chart
  wedges.
- `Text` and `Optional` (`text.dfy`): Python 2's `sep.join`, `str.split` and
  `str.splitlines`, plus an option type.

The script only runs under Python 2: line 127 is a Python 2 `print` statement.
The model therefore uses Python 2 semantics. `str.splitlines` on a byte string
breaks lines at `\n`, `\r` and `\r\n`. The multi-line `^` and the `.` of the
regular expression see only `\n` as a line end.

Behaviour of the script worth noting:

- Versions are joined with `' ,'`: a space, then a comma.
- The help text gets only the one `"\t` strip of line 115, so a trailing
  quote or escape sequence of the module file stays in the description.
- Applications are not sorted by the script. Their order is whatever `ls`
  prints. `Aggregator.AppsLinesAppend` and `Aggregator.RowLinesAreFormattedRows`
  show that the table follows that order, and `Aggregator.RowsFollowListing`
  that a sorted listing gives sorted rows.
- Each directory is listed one level deep with `ls -1`.

## Model

| member | source | states |
|---|---|---|
| Catalog.ParseTheme | produce_installed_modules_list.py:13-16 | with no option the theme is `all`; an argument is accepted exactly when it is `all`, `chemistry` or `genomics`, and maps to the choice spelled that way |
| Catalog.ParseArgValue | produce_installed_modules_list.py:13-16 | each choice's spelling parses back to that choice |
| Catalog.Themes | produce_installed_modules_list.py:23-30 | `all` selects exactly the fourteen listed categories in listed order; any other choice selects the one-element list of its own name |
| Catalog.ThemesWithinCatalog | produce_installed_modules_list.py:23-30 | every selection is free of repeats, and a single-category run covers a category of the `all` run |
| Catalog.RootShape | produce_installed_modules_list.py:89-91 | the root starts with `/apps/modules/` followed by the category, and has the extra `/compiler` segment exactly for `compilers` |
| Catalog.RootInjective | produce_installed_modules_list.py:89-91 | two slash-free categories with the same root are the same category, so the extra segment never makes two roots coincide |
| Catalog.RootsDistinct | produce_installed_modules_list.py:88-91 | every run lists pairwise different root directories |
| Text.SplitLines | produce_installed_modules_list.py:93 | no piece of a split listing holds a line break |
| Text.SplitLinesTerminated | produce_installed_modules_list.py:35-40 | splitting `ls -1` output, one newline-terminated name per line, gives back exactly those names, so the line count is the entry count |
| Text.SplitJoinVersions | produce_installed_modules_list.py:118 | the versions cell, joined with `' ,'`, splits back into the listed versions in listing order when no version name contains `' ,'` |
| Aggregator.Listing | produce_installed_modules_list.py:100-101 | every listed application or version name is a single line |
| HelpText.FirstMarker | produce_installed_modules_list.py:113 | the scan returns a line start followed by the pattern's fixed part, with no earlier line start followed by it, or reports that no line start at all is followed by it |
| HelpText.RawHelpText | produce_installed_modules_list.py:113 | there is no match exactly when no line starts with the marker; a match never contains a newline |
| HelpText.RawHelpTextMatch | produce_installed_modules_list.py:113 | when `p` is the first line start followed by the marker, the match is the rest of that line after the marker |
| HelpText.RawHelpTextIsFirstMarkedLine | produce_installed_modules_list.py:113 | the regular-expression reading equals the line reading: the remainder of the first line of `content.split('\n')` that starts with the marker; a marker later in a line is never matched |
| HelpText.LastQuoteTab | produce_installed_modules_list.py:115 | finds the last `"\t` ending within the bound, or reports that there is none |
| HelpText.StripQuoteTab | produce_installed_modules_list.py:115 | without `"\t` the text is unchanged; otherwise the result is exactly the suffix after the last `"\t`; it is always a suffix and never contains `"\t` |
| HelpText.StripQuoteTabIdempotent | produce_installed_modules_list.py:115 | stripping twice equals stripping once |
| HelpText.Description | produce_installed_modules_list.py:113-122 | the description is `missing description` when no line carries the marker, otherwise the stripped remainder; it never contains a newline |
| Aggregator.Report | produce_installed_modules_list.py:87-94 | one count per category, in category order, each equal to the number of lines of that category's root listing |
| Aggregator.ReportAppend | produce_installed_modules_list.py:88-98 | the output for `a + b` is the output for `a` followed by the output for `b`, so categories are printed one after another |
| Aggregator.ReportSingle | produce_installed_modules_list.py:88-127 | one category prints its heading block followed by the lines of the applications under its root, and records its root listing's line count |
| Aggregator.CountsIgnoreFiles | produce_installed_modules_list.py:92-94 | the counts depend on the listings alone, whatever module files exist or contain |
| Aggregator.EntryLineCount | produce_installed_modules_list.py:108-127 | an application prints at most one line, and none exactly when its version listing is empty |
| Aggregator.ListedRow | produce_installed_modules_list.py:108-127 | a row exists exactly when the first version is a regular file; otherwise the only line is `<root>/<app>/<v0>` TAB `not a file`; a row holds the application, all its versions, and the stripped help text or the placeholder |
| Aggregator.Classify | produce_installed_modules_list.py:100-116 | an application has no entry exactly when its version listing is empty; otherwise its module file is `<root>/<app>/<first version>`, and it is listed exactly when that path is a file, with the application, all its versions and a single-line description |
| Aggregator.FormatRow | produce_installed_modules_list.py:117-118 | when no cell contains `\|`, the row line splits at `\|` back into the application, the joined versions and the description |
| Aggregator.Diagnostic | produce_installed_modules_list.py:126-127 | when the path holds no tab, the diagnostic splits at the tab back into the module file path and `not a file` |
| Aggregator.AppsLines | produce_installed_modules_list.py:100-127 | table lines plus applications without versions equal the applications listed |
| Aggregator.SectionLines | produce_installed_modules_list.py:96-127 | a section starts with the category heading, table header and rule, and has at most one further line per application counted for the chart |
| Aggregator.SectionLengthAgainstCount | produce_installed_modules_list.py:93-98 | a category's chart count exceeds its table length by exactly its applications without versions |
| Aggregator.Rows | produce_installed_modules_list.py:100 | every row belongs to a listed application |
| Aggregator.RowsFollowListing | produce_installed_modules_list.py:100-118 | rows appear in listing order: a listing strictly increasing in a transitive order gives rows whose application names increase too |
| Aggregator.AppsLinesAppend | produce_installed_modules_list.py:100-127 | the table for the applications `a + b` is the table for `a` followed by the table for `b`, so applications are printed in listing order |
| Aggregator.AppsLinesSingle | produce_installed_modules_list.py:100-127 | one application prints exactly its own entry: its row, its diagnostic, or nothing |
| Aggregator.RowLinesAreFormattedRows | produce_installed_modules_list.py:100-118 | the formatted rows occur in the printed table in row order, the `k`-th at a position that strictly increases with `k` |
| Aggregator.RowCells | produce_installed_modules_list.py:117-118 | a row `\|app\|V\|D\|` splits at `\|` into exactly the cells app, versions and description when none contains `\|`, and its versions cell splits back into the versions |
| Aggregator.ReportLinesAreSingleLines | produce_installed_modules_list.py:96-127 | with newline-free category names, no printed line contains a newline, for every file system |
| Aggregator.SectionLinesAreSingleLines | produce_installed_modules_list.py:96-127 | no line of a category section contains a newline |
| Aggregator.AppsLinesAreSingleLines | produce_installed_modules_list.py:108-127 | no row or diagnostic contains a newline |
| PieChart.ZerosFrom | produce_installed_modules_list.py:44 | the collected indexes are increasing and are exactly the positions of zero counts |
| PieChart.DeleteAt | produce_installed_modules_list.py:48-49 | deleting index i keeps the entries before i and shifts the rest down by one |
| PieChart.DropZeroEntries | produce_installed_modules_list.py:44-49 | deleting the zero indexes in descending order leaves exactly the label and count lists filtered to the non-zero counts |
| PieChart.KeepRemovesExactlyZeros | produce_installed_modules_list.py:44-49 | no zero count survives, every non-zero count keeps its multiplicity, and the list shrinks by the number of zeros |
| PieChart.KeepKeepsPairsAligned | produce_installed_modules_list.py:46-49 | the two filtered lists have equal length, and pairing them gives the original non-zero (label, count) pairs in their original order |
| PieChart.KeepMembership | produce_installed_modules_list.py:44-49 | an entry survives exactly when its count is non-zero |
| Program.ChartWedges | produce_installed_modules_list.py:44-49 | the chart labels are exactly the categories whose root listing is non-empty, with their counts, aligned and in order |
| Program.Run | produce_installed_modules_list.py:87-129 | a run prints the report of its categories, and charts one non-zero wedge per category with applications, paired with its count in category order |
| Findings.ReportAsWritten | produce_installed_modules_list.py:96-127 | whether the loop as written completes or stops with the NameError, what it has printed is a prefix of the corrected report |
| Findings.StopsExactlyAtUnboundRead | produce_installed_modules_list.py:114-123 | the run as written stops with the NameError exactly when some print reads `help_text_string` before any earlier application has assigned it |
| Findings.ExecuteAgree | produce_installed_modules_list.py:96-127 | a run as written that does not stop prints every step's lines in order, after what was printed before |
| Findings.ReportStepsPrint | produce_installed_modules_list.py:96-127 | the headings and application prints of the run as written are, line for line, the corrected report |
| Findings.AsWrittenAgreesWhenCompleted | produce_installed_modules_list.py:114-123 | whenever the script as written finishes, it prints exactly the corrected report |
| Findings.StopsAtUnmarkedFirstApp | produce_installed_modules_list.py:114-123 | whenever the first application listed under the first category is a file without a marker line, the code as written prints that category's heading and table header and then stops with the NameError |
| Findings.NameErrorOnFirstUnmarkedApp | produce_installed_modules_list.py:121-123 | for a first application whose module file has no marker line, the code as written stops after the table header, while the corrected report prints the `missing description` row |

## Findings

| source | as written | input that shows it | evidently intended | confidence | as-written member | corrected member |
|---|---|---|---|---|---|---|
| produce_installed_modules_list.py:121-123 | the `missing description` row is formatted with a third argument, `help_text_string`. That name is assigned only in the branch for a file with a marker line, and arguments are evaluated before the call | the first application processed (`chemistry/foo`, version `1.0`) has a module file without a `set help_text` line: the run raises NameError after the table header, and no chart is drawn | print the row with the placeholder description, as the commented line 124 does | not executed | Findings.ReportAsWritten | Aggregator.Report |

`Findings.ReportAsWritten` models the code as written;
`Findings.NameErrorOnFirstUnmarkedApp` applies the as-written model to the input above, and
`Findings.StopsAtUnmarkedFirstApp` states the stop for every such input.
The run is a sequence of steps, one per heading and one per application,
executed against a flag that records whether `help_text_string` is bound. The flag is never reset
between categories, because the name is a module-level variable.
`Aggregator.Report` is the corrected loop, and `Program.Run` uses it.

## Left out

- Argument parsing beyond the three choices and the default. `argparse`'s
  usage and error messages are not modelled; a rejected argument is `None`.
- `match_pattern` (lines 27 and 30) is assigned and never used.
- `list_directory_content` (lines 35-40) is the `ls` oracle. Its splitting of
  the command at whitespace (`bashCommand.split()`, line 37) is not modelled:
  the oracle stands for the function's whole result, so a path containing
  whitespace is covered only because the oracle is unconstrained. The sort
  order and the hiding of dot files belong to `ls`.
- `os.path.isfile` and `open`/`read` are the `isFile` and `read` oracles. An
  unreadable file is a fatal error of the script and is not modelled.
- All drawing in `pie_chart` (lines 50-76) is left out: the float shares, the
  3% label threshold, the angles and the SVG output. It is floating point and
  plotting; only the zero filtering before it is modelled.
- Printing is modelled as the returned list of lines. Python's `print` adds the
  newline that `Aggregator.ReportLinesAreSingleLines` accounts for.
- `labels=themes` at line 46 aliases the global category list. The deletions
  therefore change `themes` too, but only after the report is printed, so
  nothing observable depends on it.
- Text.SplitLines: follows Python 2's byte-string `splitlines`. Python 3's
  version also breaks at `\v`, `\f`, `\x1c`-`\x1e`, `\x85`, `\u2028` and
  `\u2029`; that only matters for file names holding those characters.

=== FILE: aggregator.dfy ===
/**
 The report aggregator: for every category, count the applications listed
 under its root, then turn each application into a markdown row, a
 "not a file" diagnostic or nothing.

 The file system is given to the model as three functions standing for the
 script's three kinds of calls into the operating system.
 */
module Aggregator {
  import opened Text
  import opened Catalog
  import opened HelpText

  /**
   `ls` gives what `list_directory_content(dir)` returns, `isFile` answers
   `os.path.isfile(path)` and `read` gives the text of `open(path).read()`.
   */
  datatype FileSystem = FileSystem(
    ls: string -> string,
    isFile: string -> bool,
    read: string -> string)

  /** `list_directory_content(dir).splitlines()` */
  function Listing(fs: FileSystem, dir: string): (names: seq<string>)
    ensures forall i :: 0 <= i < |names| ==> SingleLine(names[i])
  {
    SplitLines(fs.ls(dir))
  }

  function AppDir(root: string, app: string): string {
    root + "/" + app
  }

  function ModuleFile(root: string, app: string, version: string): string {
    root + "/" + app + "/" + version
  }

  /** One table row: application, its versions in listing order, and the description cell. */
  datatype ReportRow = ReportRow(app: string, versions: seq<string>, description: string)

  /** What one application contributes to its category's table. */
  datatype AppEntry =
    | NoVersions
    | NotAFile(moduleFile: string)
    | Listed(moduleFile: string, row: ReportRow)

  /**
   One application: only the first listed version's module file is read, on
   the assumption that all versions share their help text.
   */
  function Classify(fs: FileSystem, root: string, app: string): (e: AppEntry)
    ensures e.NoVersions? <==> |Listing(fs, AppDir(root, app))| == 0
    ensures !e.NoVersions? ==> e.moduleFile == ModuleFile(root, app, Listing(fs, AppDir(root, app))[0])
    ensures e.Listed? <==> !e.NoVersions? && fs.isFile(e.moduleFile)
    ensures e.Listed? ==> e.row.app == app && e.row.versions == Listing(fs, AppDir(root, app))
    ensures e.Listed? ==> '\n' !in e.row.description
  {
    var versions := Listing(fs, AppDir(root, app));
    if |versions| == 0 then NoVersions
    else
      var moduleFile := ModuleFile(root, app, versions[0]);
      if !fs.isFile(moduleFile) then NotAFile(moduleFile)
      else Listed(moduleFile, ReportRow(app, versions, Description(fs.read(moduleFile))))
  }

  /**
   `'|{0}|{1}|{2}|'.format(app, ' ,'.join(versions), description)`: when no
   cell contains `|`, the line splits at `|` back into its three cells.
   */
  function FormatRow(row: ReportRow): (line: string)
    ensures '|' !in row.app && '|' !in row.description && PiecesFree(row.versions, '|') ==>
              Split(line, '|') == ["", row.app, Join(row.versions, VersionSeparator), row.description, ""]
  {
    var versions := Join(row.versions, VersionSeparator);
    VersionsCellFree(row.versions);
    FramedCells(row.app, versions, row.description);
    "|" + row.app + "|" + versions + "|" + row.description + "|"
  }

  /** The text of a row, cell by cell. */
  lemma RowText(row: ReportRow)
    ensures FormatRow(row) == "|" + row.app + "|" + Join(row.versions, VersionSeparator) + "|" + row.description + "|"
  {
  }

  /** A versions cell holds no `|` when no version does. */
  lemma VersionsCellFree(versions: seq<string>)
    ensures PiecesFree(versions, '|') ==> '|' !in Join(versions, VersionSeparator)
  {
    if PiecesFree(versions, '|') {
      JoinExcludes(versions, VersionSeparator, '|');
    }
  }

  /** Three `|`-free cells framed by `|` split back into those cells. */
  lemma {:induction false} FramedCells(a: string, v: string, d: string)
    ensures '|' !in a && '|' !in v && '|' !in d ==>
              Split("|" + a + "|" + v + "|" + d + "|", '|') == ["", a, v, d, ""]
  {
    if '|' !in a && '|' !in v && '|' !in d {
      var cells := ["", a, v, d, ""];
      assert "|" + a + "|" + v + "|" + d + "|" == Join(cells, "|") by {
        assert Join(cells[4..], "|") == "";
        assert cells[3..][1..] == cells[4..];
        assert Join(cells[3..], "|") == d + "|" + "";
        assert cells[2..][1..] == cells[3..];
        assert Join(cells[2..], "|") == v + "|" + Join(cells[3..], "|");
        assert cells[1..][1..] == cells[2..];
        assert Join(cells[1..], "|") == a + "|" + Join(cells[2..], "|");
        assert Join(cells, "|") == "" + "|" + Join(cells[1..], "|");
      }
      assert PiecesFree(cells, '|');
      SplitJoin(cells, '|');
    }
  }

  const NotAFileText: string := "not a file"

  /**
   `'{0}\t{1}'.format(module_file, "not a file")`: when the path holds no tab,
   the line splits at the tab into the path and the message.
   */
  function Diagnostic(moduleFile: string): (line: string)
    ensures '\t' !in moduleFile ==> Split(line, '\t') == [moduleFile, NotAFileText]
  {
    TabCells(moduleFile);
    moduleFile + "\t" + NotAFileText
  }

  lemma {:induction false} TabCells(moduleFile: string)
    ensures '\t' !in moduleFile ==> Split(moduleFile + "\t" + NotAFileText, '\t') == [moduleFile, NotAFileText]
  {
    if '\t' !in moduleFile {
      assert moduleFile + "\t" + NotAFileText == moduleFile + ['\t'] + NotAFileText;
      SplitAfterPiece(moduleFile, '\t', NotAFileText);
      SplitNoSeparator(NotAFileText, '\t');
    }
  }

  function EntryLines(e: AppEntry): seq<string> {
    match e
    case NoVersions => []
    case NotAFile(f) => [Diagnostic(f)]
    case Listed(_, row) => [FormatRow(row)]
  }

  /** Number of applications whose version listing is empty. */
  function Unlisted(fs: FileSystem, root: string, apps: seq<string>): nat
    decreases |apps|
  {
    if |apps| == 0 then 0
    else (if |Listing(fs, AppDir(root, apps[0]))| == 0 then 1 else 0) + Unlisted(fs, root, apps[1..])
  }

  /**
   The lines printed for the applications `apps`, one application after
   another. The table has one line per application, except for applications
   without versions: these are counted for the chart yet print nothing.
   */
  function AppsLines(fs: FileSystem, root: string, apps: seq<string>): (lines: seq<string>)
    ensures |lines| + Unlisted(fs, root, apps) == |apps|
    decreases |apps|
  {
    if |apps| == 0 then []
    else
      EntryLineCount(fs, root, apps[0]);
      EntryLines(Classify(fs, root, apps[0])) + AppsLines(fs, root, apps[1..])
  }

  const TableHeader: string := "|Name|Versions available|Description|"

  const TableRule: string := "|----|------------------|-----------|"

  /** The category title, then the table's header and rule. */
  function Heading(category: string): seq<string> {
    ["## " + category, TableHeader, TableRule]
  }

  /**
   A category's section: heading and table header, then at most one line for
   each application counted for the chart.
   */
  function SectionLines(fs: FileSystem, category: string): (lines: seq<string>)
    ensures Heading(category) <= lines
    ensures |lines| <= |Heading(category)| + AppCount(fs, category)
  {
    var root := Root(category);
    Heading(category) + AppsLines(fs, root, Listing(fs, root))
  }

  /** The chart size of a category: the number of lines its root listing has. */
  function AppCount(fs: FileSystem, category: string): nat {
    |Listing(fs, Root(category))|
  }

  /** Everything printed, and the per-category counts handed to the chart. */
  datatype ReportOut = ReportOut(lines: seq<string>, counts: seq<nat>)

  /**
   The main loop over the categories: sections are printed in category order
   and one count per category is appended, taken from the raw root listing.
   */
  function Report(fs: FileSystem, categories: seq<string>): (r: ReportOut)
    ensures |r.counts| == |categories|
    ensures forall i :: 0 <= i < |categories| ==> r.counts[i] == |Listing(fs, Root(categories[i]))|
    decreases |categories|
  {
    if |categories| == 0 then ReportOut([], [])
    else
      var rest := Report(fs, categories[1..]);
      ReportOut(SectionLines(fs, categories[0]) + rest.lines, [AppCount(fs, categories[0])] + rest.counts)
  }

  /** The report over `a + b` prints the report over `a`, then the report over `b`. */
  lemma {:induction false} ReportAppend(fs: FileSystem, a: seq<string>, b: seq<string>)
    ensures Report(fs, a + b).lines == Report(fs, a).lines + Report(fs, b).lines
    decreases |a|
  {
    if |a| > 0 {
      var ab := a + b;
      assert ab[0] == a[0];
      assert ab[1..] == a[1..] + b;
      ReportAppend(fs, a[1..], b);
      var s := SectionLines(fs, a[0]);
      var rt, rb := Report(fs, a[1..]).lines, Report(fs, b).lines;
      assert Report(fs, a).lines == s + rt;
      assert Report(fs, ab).lines == s + Report(fs, ab[1..]).lines;
      assert s + (rt + rb) == (s + rt) + rb;
    } else {
      assert a + b == b;
    }
  }

  /** One category prints its section and records the size of its root listing. */
  lemma {:induction false} ReportSingle(fs: FileSystem, category: string)
    ensures Report(fs, [category]).lines == Heading(category) + AppsLines(fs, Root(category), Listing(fs, Root(category)))
    ensures Report(fs, [category]).counts == [|Listing(fs, Root(category))|]
  {
    assert [category][1..] == [];
    assert SectionLines(fs, category) + [] == SectionLines(fs, category);
  }

  /**
   The counts depend on the root listings alone: whether module files exist
   and what they contain never changes them.
   */
  lemma {:induction false} CountsIgnoreFiles(fs1: FileSystem, fs2: FileSystem, categories: seq<string>)
    requires fs1.ls == fs2.ls
    ensures Report(fs1, categories).counts == Report(fs2, categories).counts
  {
    var c1 := Report(fs1, categories).counts;
    var c2 := Report(fs2, categories).counts;
    assert forall i :: 0 <= i < |c1| ==> c1[i] == c2[i];
  }

  /** One application prints at most one line, and none exactly when it has no versions. */
  lemma EntryLineCount(fs: FileSystem, root: string, app: string)
    ensures |EntryLines(Classify(fs, root, app))| <= 1
    ensures |EntryLines(Classify(fs, root, app))| == 0 <==> |Listing(fs, AppDir(root, app))| == 0
  {
  }

  /** The same statement for a whole category section against its chart count. */
  lemma {:induction false} SectionLengthAgainstCount(fs: FileSystem, category: string)
    ensures |SectionLines(fs, category)| - 3 + Unlisted(fs, Root(category), Listing(fs, Root(category)))
            == AppCount(fs, category)
  {
    var root := Root(category);
    assert SectionLines(fs, category) == Heading(category) + AppsLines(fs, root, Listing(fs, root));
  }

  /** The rows of the table, in the order they are printed. */
  function Rows(fs: FileSystem, root: string, apps: seq<string>): (rows: seq<ReportRow>)
    ensures forall j :: 0 <= j < |rows| ==> rows[j].app in apps
    decreases |apps|
  {
    if |apps| == 0 then []
    else
      var e := Classify(fs, root, apps[0]);
      (if e.Listed? then [e.row] else []) + Rows(fs, root, apps[1..])
  }

  /**
   Rows follow the listing order: when the listing is strictly increasing in a
   transitive order (the order `ls` sorts by), so are the rows' application
   names.
   */
  lemma {:induction false} RowsFollowListing(
    fs: FileSystem, root: string, apps: seq<string>, less: (string, string) -> bool)
    requires forall x, y, z :: less(x, y) && less(y, z) ==> less(x, z)
    requires forall i, j :: 0 <= i < j < |apps| ==> less(apps[i], apps[j])
    ensures forall i, j :: 0 <= i < j < |Rows(fs, root, apps)| ==>
              less(Rows(fs, root, apps)[i].app, Rows(fs, root, apps)[j].app)
    decreases |apps|
  {
    if |apps| > 0 {
      var tail := Rows(fs, root, apps[1..]);
      RowsFollowListing(fs, root, apps[1..], less);
      forall j | 0 <= j < |tail| ensures less(apps[0], tail[j].app) {
        var k :| 0 <= k < |apps[1..]| && apps[1..][k] == tail[j].app;
        assert apps[k + 1] == tail[j].app;
      }
    }
  }

  /**
   The table is printed application by application: the lines for `a + b` are
   the lines for `a` followed by the lines for `b`, and one application
   prints exactly its own entry.
   */
  lemma {:induction false} AppsLinesAppend(fs: FileSystem, root: string, a: seq<string>, b: seq<string>)
    ensures AppsLines(fs, root, a + b) == AppsLines(fs, root, a) + AppsLines(fs, root, b)
    decreases |a|
  {
    if |a| > 0 {
      var ab := a + b;
      assert ab[0] == a[0];
      assert ab[1..] == a[1..] + b;
      AppsLinesAppend(fs, root, a[1..], b);
      var e := EntryLines(Classify(fs, root, a[0]));
      var ta, tb := AppsLines(fs, root, a[1..]), AppsLines(fs, root, b);
      assert e + (ta + tb) == (e + ta) + tb;
    } else {
      assert a + b == b;
    }
  }

  lemma {:induction false} AppsLinesSingle(fs: FileSystem, root: string, app: string)
    ensures AppsLines(fs, root, [app]) == EntryLines(Classify(fs, root, app))
  {
    assert [app][1..] == [];
  }

  /** Adds `d` to every position. */
  function Shift(positions: seq<nat>, d: nat): (r: seq<nat>)
    ensures |r| == |positions|
    ensures forall k :: 0 <= k < |r| ==> r[k] == positions[k] + d
    decreases |positions|
  {
    if |positions| == 0 then []
    else [positions[0] + d] + Shift(positions[1..], d)
  }

  /** Where the rows of the table stand among the printed lines. */
  function RowPositions(fs: FileSystem, root: string, apps: seq<string>): seq<nat>
    decreases |apps|
  {
    if |apps| == 0 then []
    else
      var e := Classify(fs, root, apps[0]);
      (if e.Listed? then [0] else []) + Shift(RowPositions(fs, root, apps[1..]), |EntryLines(e)|)
  }

  /** One application's contribution to the rows, their positions and the printed lines. */
  lemma RowsStep(fs: FileSystem, root: string, apps: seq<string>)
    requires |apps| > 0
    ensures var e := Classify(fs, root, apps[0]);
            var shifted := Shift(RowPositions(fs, root, apps[1..]), |EntryLines(e)|);
            && AppsLines(fs, root, apps) == EntryLines(e) + AppsLines(fs, root, apps[1..])
            && (e.Listed? ==> && Rows(fs, root, apps) == [e.row] + Rows(fs, root, apps[1..])
                              && RowPositions(fs, root, apps) == [0] + shifted
                              && EntryLines(e) == [FormatRow(e.row)])
            && (!e.Listed? ==> && Rows(fs, root, apps) == Rows(fs, root, apps[1..])
                               && RowPositions(fs, root, apps) == shifted)
  {
  }

  /** The printed form of each row. */
  function RowLines(rows: seq<ReportRow>): (lines: seq<string>)
    ensures |lines| == |rows|
    ensures forall k :: 0 <= k < |rows| ==> lines[k] == FormatRow(rows[k])
    decreases |rows|
  {
    if |rows| == 0 then []
    else [FormatRow(rows[0])] + RowLines(rows[1..])
  }

  /** `picked` occurs in `lines` at the strictly increasing `positions`. */
  ghost predicate Picks<T>(positions: seq<nat>, lines: seq<T>, picked: seq<T>) {
    && |positions| == |picked|
    && (forall j, k :: 0 <= j < k < |positions| ==> positions[j] < positions[k])
    && (forall k :: 0 <= k < |positions| ==> positions[k] < |lines| && lines[positions[k]] == picked[k])
  }

  /** Lines in front shift every picked position by their number. */
  lemma {:induction false} PicksBehind<T>(positions: seq<nat>, head: seq<T>, lines: seq<T>, picked: seq<T>)
    requires Picks(positions, lines, picked)
    ensures Picks(Shift(positions, |head|), head + lines, picked)
  {
    var sh := Shift(positions, |head|);
    forall k | 0 <= k < |sh| ensures sh[k] < |head + lines| && (head + lines)[sh[k]] == picked[k] {
      assert (head + lines)[sh[k]] == lines[positions[k]];
    }
  }

  /** A picked line in front stands at position 0, the others behind it. */
  lemma {:induction false} PicksAfter<T>(positions: seq<nat>, x: T, lines: seq<T>, picked: seq<T>)
    requires Picks(positions, lines, picked)
    ensures Picks([0] + Shift(positions, 1), [x] + lines, [x] + picked)
  {
    var sh := Shift(positions, 1);
    var ps, ls, xs := [0] + sh, [x] + lines, [x] + picked;
    forall k | 0 <= k < |ps| ensures ps[k] < |ls| && ls[ps[k]] == xs[k] {
      if k > 0 {
        assert ps[k] == positions[k - 1] + 1;
        assert ls[ps[k]] == lines[positions[k - 1]];
      }
    }
    forall j, k | 0 <= j < k < |ps| ensures ps[j] < ps[k] {
      assert ps[k] == positions[k - 1] + 1;
      if j > 0 {
        assert ps[j] == positions[j - 1] + 1;
      }
    }
  }

  /**
   The rows are printed in order: the `k`-th row's line stands in the table at
   a position that increases with `k`.
   */
  lemma {:induction false} RowLinesAreFormattedRows(fs: FileSystem, root: string, apps: seq<string>)
    ensures Picks(RowPositions(fs, root, apps), AppsLines(fs, root, apps), RowLines(Rows(fs, root, apps)))
    decreases |apps|
  {
    if |apps| > 0 {
      RowLinesAreFormattedRows(fs, root, apps[1..]);
      RowsStep(fs, root, apps);
      var e := Classify(fs, root, apps[0]);
      var pos', lines', rows' := RowPositions(fs, root, apps[1..]), AppsLines(fs, root, apps[1..]), Rows(fs, root, apps[1..]);
      if e.Listed? {
        PicksAfter(pos', FormatRow(e.row), lines', RowLines(rows'));
        assert ([e.row] + rows')[1..] == rows';
        assert RowLines([e.row] + rows') == [FormatRow(e.row)] + RowLines(rows');
      } else {
        PicksBehind(pos', EntryLines(e), lines', RowLines(rows'));
      }
    }
  }

  /**
   A row has exactly three cells (application, versions, description) when
   none of them contains `|`, and the versions cell splits back at `' ,'`
   into the listed versions.
   */
  lemma {:induction false} RowCells(row: ReportRow)
    requires '|' !in row.app && '|' !in row.description
    requires PiecesFree(row.versions, '|')
    requires |row.versions| >= 1 && VersionsSeparable(row.versions)
    ensures Split(FormatRow(row), '|') == ["", row.app, Join(row.versions, VersionSeparator), row.description, ""]
    ensures SplitVersions(Split(FormatRow(row), '|')[2]) == row.versions
  {
    SplitJoinVersions(row.versions);
  }

  /**
   A row is listed for an application exactly when its first version is a
   regular file; it carries the application, all its versions, and the
   stripped help text of that file or the placeholder.
   */
  lemma {:induction false} ListedRow(fs: FileSystem, root: string, app: string)
    ensures Classify(fs, root, app).Listed? <==>
              |Listing(fs, AppDir(root, app))| > 0
              && fs.isFile(ModuleFile(root, app, Listing(fs, AppDir(root, app))[0]))
    ensures Classify(fs, root, app).NotAFile? ==>
              EntryLines(Classify(fs, root, app))
              == [ModuleFile(root, app, Listing(fs, AppDir(root, app))[0]) + "\tnot a file"]
    ensures Classify(fs, root, app).Listed? ==>
              var e := Classify(fs, root, app);
              var raw := RawHelpText(fs.read(e.moduleFile));
              && e.moduleFile == ModuleFile(root, app, Listing(fs, AppDir(root, app))[0])
              && e.row.app == app
              && e.row.versions == Listing(fs, AppDir(root, app))
              && (raw.None? ==> e.row.description == MissingDescription)
              && (raw.Some? ==> e.row.description == StripQuoteTab(raw.value))
  {
    var versions := Listing(fs, AppDir(root, app));
    if |versions| > 0 {
      var m := ModuleFile(root, app, versions[0]);
      assert m + "\t" + "not a file" == m + "\tnot a file";
    }
  }

  /**
   Every printed line is a single line: category names without newlines give
   report lines without newlines, whatever the file system holds, so each
   element is printed as exactly one line of output.
   */
  lemma {:induction false} ReportLinesAreSingleLines(fs: FileSystem, categories: seq<string>)
    requires forall i :: 0 <= i < |categories| ==> '\n' !in categories[i]
    ensures forall j :: 0 <= j < |Report(fs, categories).lines| ==> '\n' !in Report(fs, categories).lines[j]
    decreases |categories|
  {
    if |categories| > 0 {
      assert forall i :: 0 <= i < |categories[1..]| ==> '\n' !in categories[1..][i];
      ReportLinesAreSingleLines(fs, categories[1..]);
      SectionLinesAreSingleLines(fs, categories[0]);
      var rest := Report(fs, categories[1..]).lines;
      var sec := SectionLines(fs, categories[0]);
      assert Report(fs, categories).lines == sec + rest;
      forall j | 0 <= j < |sec + rest| ensures '\n' !in (sec + rest)[j] {
        if j >= |sec| {
          assert (sec + rest)[j] == rest[j - |sec|];
        }
      }
    }
  }

  lemma {:induction false} SectionLinesAreSingleLines(fs: FileSystem, category: string)
    requires '\n' !in category
    ensures forall j :: 0 <= j < |SectionLines(fs, category)| ==> '\n' !in SectionLines(fs, category)[j]
  {
    var root := Root(category);
    RootSingleLine(category);
    HeadingSingleLines(category);
    AppsLinesAreSingleLines(fs, root, Listing(fs, root));
    var h := Heading(category);
    var t := AppsLines(fs, root, Listing(fs, root));
    assert SectionLines(fs, category) == h + t;
    forall j | 0 <= j < |h + t| ensures '\n' !in (h + t)[j] {
      if j >= |h| {
        assert (h + t)[j] == t[j - |h|];
      }
    }
  }

  lemma {:induction false} RootSingleLine(category: string)
    requires '\n' !in category
    ensures '\n' !in Root(category)
  {
    assert '\n' !in ModulesPrefix;
    assert '\n' !in "/compiler";
  }

  lemma {:induction false} HeadingSingleLines(category: string)
    requires '\n' !in category
    ensures forall j :: 0 <= j < |Heading(category)| ==> '\n' !in Heading(category)[j]
  {
    var h := Heading(category);
    assert '\n' !in "## ";
    assert '\n' !in h[0];
    HeaderSingleLine();
    RuleSingleLine();
  }

  lemma HeaderSingleLine()
    ensures '\n' !in TableHeader
  {
  }

  lemma RuleSingleLine()
    ensures '\n' !in TableRule
  {
  }

  lemma {:induction false} AppsLinesAreSingleLines(fs: FileSystem, root: string, apps: seq<string>)
    requires '\n' !in root
    requires forall i :: 0 <= i < |apps| ==> SingleLine(apps[i])
    ensures forall j :: 0 <= j < |AppsLines(fs, root, apps)| ==> '\n' !in AppsLines(fs, root, apps)[j]
    decreases |apps|
  {
    if |apps| > 0 {
      var app := apps[0];
      assert SingleLine(app);
      var versions := Listing(fs, AppDir(root, app));
      if |versions| > 0 {
        assert '\n' !in versions[0] by { assert SingleLine(versions[0]); }
        assert '\n' !in ModuleFile(root, app, versions[0]);
        assert PiecesFree(versions, '\n') by {
          forall i | 0 <= i < |versions| ensures '\n' !in versions[i] {
            assert SingleLine(versions[i]);
          }
        }
        JoinExcludes(versions, VersionSeparator, '\n');
      }
      AppsLinesAreSingleLines(fs, root, apps[1..]);
    }
  }
}

=== FILE: catalog.dfy ===
/**
 The category catalog: which module categories a run covers, and where each
 category's applications live on disk.
 */
module Catalog {
  import opened Optional
  import opened Text

  /** The values the `-t/--theme` option accepts. */
  datatype ThemeArg = All | Chemistry | Genomics

  /** The command-line spelling of each choice. */
  function ArgValue(t: ThemeArg): string {
    match t
    case All => "all"
    case Chemistry => "chemistry"
    case Genomics => "genomics"
  }

  /**
   The option as the argument parser resolves it: absent means `all`, a listed
   choice is accepted, anything else is rejected (the parser exits with an
   error).
   */
  function ParseTheme(arg: Option<string>): (r: Option<ThemeArg>)
    ensures arg.None? ==> r == Some(All)
    ensures arg.Some? ==> (r.Some? <==> arg.value in ["all", "chemistry", "genomics"])
    ensures r.Some? && arg.Some? ==> ArgValue(r.value) == arg.value
  {
    match arg
    case None => Some(All)
    case Some(s) =>
      if s == "all" then Some(All)
      else if s == "chemistry" then Some(Chemistry)
      else if s == "genomics" then Some(Genomics)
      else None
  }

  /** Every choice's spelling is parsed back to that choice. */
  lemma ParseArgValue(t: ThemeArg)
    ensures ParseTheme(Some(ArgValue(t))) == Some(t)
  {
  }

  /** The fourteen categories a run over `all` covers, in report order. */
  const AllCategories: seq<string> :=
    ["biology", "chemistry", "compilers", "creative", "environment", "financial",
     "genomics", "languages", "libraries", "machine-learning", "materials",
     "medical", "physics", "tools"]

  /** The categories processed for a theme choice. */
  function Themes(t: ThemeArg): (r: seq<string>)
    ensures t == All ==> |r| == 14 && r == AllCategories
    ensures t != All ==> r == [ArgValue(t)]
  {
    if t == All then AllCategories else [ArgValue(t)]
  }

  /** No category is listed twice. */
  predicate Distinct(cs: seq<string>) {
    forall i, j :: 0 <= i < j < |cs| ==> cs[i] != cs[j]
  }

  /** A single-category run covers one of the categories of an `all` run. */
  lemma {:induction false} ThemesWithinCatalog(t: ThemeArg)
    ensures Distinct(Themes(t))
    ensures forall c :: c in Themes(t) ==> c in AllCategories
  {
    assert AllCategories[1] == "chemistry";
    assert AllCategories[6] == "genomics";
  }

  const ModulesPrefix: string := "/apps/modules/"

  /** The one category whose applications sit one directory further down. */
  const Compilers: string := "compilers"

  /** The directory listed for a category. */
  function Root(category: string): string {
    if category == Compilers then ModulesPrefix + category + "/compiler"
    else ModulesPrefix + category
  }

  /**
   Every root is the modules tree followed by the category; only `compilers`
   gets the extra `/compiler` segment.
   */
  lemma {:induction false} RootShape(category: string)
    ensures HasPrefix(Root(category), ModulesPrefix + category)
    ensures category == Compilers <==> Root(category) == ModulesPrefix + category + "/compiler"
    ensures category != Compilers ==> Root(category) == ModulesPrefix + category
  {
    var r := ModulesPrefix + category;
    if category != Compilers {
      assert |Root(category)| == |r|;
      assert |r + "/compiler"| == |r| + 9;
    }
  }

  /**
   Two categories whose names contain no `/` share a root only if they are the
   same category; in particular the extra `compiler` segment never makes the
   compilers root coincide with another category's.
   */
  lemma {:induction false} RootInjective(a: string, b: string)
    requires '/' !in a && '/' !in b
    requires Root(a) == Root(b)
    ensures a == b
  {
    var n := |ModulesPrefix|;
    assert Root(a)[n..] == (if a == Compilers then a + "/compiler" else a);
    assert Root(b)[n..] == (if b == Compilers then b + "/compiler" else b);
  }

  /** Every run resolves its categories to pairwise different directories. */
  lemma {:induction false} RootsDistinct(t: ThemeArg)
    ensures forall i, j :: 0 <= i < j < |Themes(t)| ==> Root(Themes(t)[i]) != Root(Themes(t)[j])
  {
    ThemesWithinCatalog(t);
    forall i, j | 0 <= i < j < |Themes(t)|
      ensures Root(Themes(t)[i]) != Root(Themes(t)[j])
    {
      var cs := Themes(t);
      assert '/' !in cs[i] && '/' !in cs[j] by { NoSlashInCatalog(); }
      if Root(cs[i]) == Root(cs[j]) {
        RootInjective(cs[i], cs[j]);
      }
    }
  }

  lemma NoSlashInCatalog()
    ensures forall c :: c in AllCategories ==> '/' !in c
  {
  }
}

=== FILE: findings.dfy ===
/**
 The report loop as written at lines 114-123 of the script. The branch for a
 module file without a marker line formats its row with an extra argument,
 `help_text_string`, that is assigned only in the other branch. The argument is
 evaluated before the call, so an application that reaches this branch before
 any application with a marker line stops the run with a NameError; later
 applications and categories are never printed and the chart is never drawn.
 Once an earlier application has bound the name, the extra argument is unused
 and the line printed is the intended row.

 The run is modelled as a sequence of steps, one per heading and one per
 application, executed against a flag that records whether the name is bound.
 */
module Findings {
  import opened Optional
  import opened Text
  import opened Catalog
  import opened HelpText
  import opened Aggregator

  /** A run in progress (lines printed so far; whether `help_text_string` is bound), or stopped by the NameError. */
  datatype Progress = Running(printed: seq<string>, bound: bool) | NameError(printed: seq<string>)

  /**
   One print of the loop: the lines it adds, whether evaluating its arguments
   reads `help_text_string`, and whether the name was assigned just before it.
   */
  datatype Step = Step(lines: seq<string>, readsName: bool, bindsName: bool)

  /** One application: only a module file without a marker line reads the name without assigning it. */
  function AppStep(fs: FileSystem, root: string, app: string): Step {
    var e := Classify(fs, root, app);
    match e
    case Listed(moduleFile, _) =>
      var marked := RawHelpText(fs.read(moduleFile)).Some?;
      Step(EntryLines(e), !marked, marked)
    case _ => Step(EntryLines(e), false, false)
  }

  function AppSteps(fs: FileSystem, root: string, apps: seq<string>): seq<Step>
    decreases |apps|
  {
    if |apps| == 0 then []
    else [AppStep(fs, root, apps[0])] + AppSteps(fs, root, apps[1..])
  }

  /** One category: its heading, then its applications. */
  function SectionSteps(fs: FileSystem, category: string): seq<Step> {
    var root := Root(category);
    [Step(Heading(category), false, false)] + AppSteps(fs, root, Listing(fs, root))
  }

  /** The flag is shared by all categories: `help_text_string` is a module-level variable of the script. */
  function ReportSteps(fs: FileSystem, categories: seq<string>): seq<Step>
    decreases |categories|
  {
    if |categories| == 0 then []
    else SectionSteps(fs, categories[0]) + ReportSteps(fs, categories[1..])
  }

  /** Reading the unbound name raises the NameError before anything of the step is printed. */
  function Perform(st: Step, p: Progress): Progress {
    match p
    case NameError(_) => p
    case Running(printed, bound) =>
      if st.readsName && !bound then NameError(printed)
      else Running(printed + st.lines, bound || st.bindsName)
  }

  function Execute(steps: seq<Step>, p: Progress): Progress
    decreases |steps|
  {
    if |steps| == 0 then p
    else Execute(steps[1..], Perform(steps[0], p))
  }

  /**
   The whole printed report as written, starting with the name unbound.
   Whether it completes or stops, what it prints is a prefix of the corrected
   report.
   */
  function ReportAsWritten(fs: FileSystem, categories: seq<string>): (p: Progress)
    ensures p.printed <= Report(fs, categories).lines
  {
    var steps := ReportSteps(fs, categories);
    ExecutePrefix(steps, [], false);
    ReportStepsPrint(fs, categories);
    Execute(steps, Running([], false))
  }

  /** The lines of the steps, one step after another. */
  function Printed(steps: seq<Step>): seq<string>
    decreases |steps|
  {
    if |steps| == 0 then []
    else steps[0].lines + Printed(steps[1..])
  }

  /** Step `i` reads the name while it is still unbound. */
  predicate ReadsUnbound(steps: seq<Step>, bound: bool, i: int) {
    && 0 <= i < |steps|
    && steps[i].readsName
    && !bound
    && forall j :: 0 <= j < i ==> !steps[j].bindsName
  }

  /** A stopped run stays stopped. */
  lemma {:induction false} StoppedStaysStopped(steps: seq<Step>, p: Progress)
    requires p.NameError?
    ensures Execute(steps, p) == p
    decreases |steps|
  {
    if |steps| > 0 {
      StoppedStaysStopped(steps[1..], p);
    }
  }

  /** A run that completes prints every step's lines, in order. */
  lemma {:induction false} ExecuteAgree(steps: seq<Step>, pre: seq<string>, bound: bool)
    ensures Execute(steps, Running(pre, bound)).Running? ==>
              Execute(steps, Running(pre, bound)).printed == pre + Printed(steps)
    decreases |steps|
  {
    if |steps| > 0 {
      var q := Perform(steps[0], Running(pre, bound));
      if q.Running? {
        ExecuteAgree(steps[1..], q.printed, q.bound);
        assert (pre + steps[0].lines) + Printed(steps[1..]) == pre + (steps[0].lines + Printed(steps[1..]));
      } else {
        StoppedStaysStopped(steps[1..], q);
      }
    } else {
      assert pre + [] == pre;
    }
  }

  /** Whether it completes or stops, a run prints a prefix of all its steps' lines. */
  lemma {:induction false} ExecutePrefix(steps: seq<Step>, pre: seq<string>, bound: bool)
    ensures Execute(steps, Running(pre, bound)).printed <= pre + Printed(steps)
    decreases |steps|
  {
    if |steps| > 0 {
      var q := Perform(steps[0], Running(pre, bound));
      if q.Running? {
        ExecutePrefix(steps[1..], q.printed, q.bound);
        assert (pre + steps[0].lines) + Printed(steps[1..]) == pre + (steps[0].lines + Printed(steps[1..]));
      } else {
        StoppedStaysStopped(steps[1..], q);
        assert pre <= pre + Printed(steps);
      }
    } else {
      assert pre + [] == pre;
    }
  }

  /**
   The run stops with the NameError exactly when some step reads the name
   before any earlier step has bound it.
   */
  lemma {:induction false} StopsExactlyAtUnboundRead(steps: seq<Step>, pre: seq<string>, bound: bool)
    ensures Execute(steps, Running(pre, bound)).NameError? <==> exists i :: ReadsUnbound(steps, bound, i)
    decreases |steps|
  {
    if |steps| > 0 {
      var st := steps[0];
      var q := Perform(st, Running(pre, bound));
      if st.readsName && !bound {
        StoppedStaysStopped(steps[1..], q);
        assert ReadsUnbound(steps, bound, 0);
      } else {
        StopsExactlyAtUnboundRead(steps[1..], q.printed, q.bound);
        if exists i :: ReadsUnbound(steps[1..], q.bound, i) {
          var i :| ReadsUnbound(steps[1..], q.bound, i);
          assert ReadsUnbound(steps, bound, i + 1);
        }
        if exists i :: ReadsUnbound(steps, bound, i) {
          var i :| ReadsUnbound(steps, bound, i);
          assert i > 0;
          assert ReadsUnbound(steps[1..], q.bound, i - 1);
        }
      }
    } else {
      assert !ReadsUnbound(steps, bound, 0);
    }
  }

  lemma {:induction false} PrintedAppend(a: seq<Step>, b: seq<Step>)
    ensures Printed(a + b) == Printed(a) + Printed(b)
    decreases |a|
  {
    if |a| > 0 {
      assert (a + b)[1..] == a[1..] + b;
      PrintedAppend(a[1..], b);
      assert (a[0].lines + Printed(a[1..])) + Printed(b) == a[0].lines + (Printed(a[1..]) + Printed(b));
    } else {
      assert a + b == b;
    }
  }

  /** The applications' steps print exactly the corrected table lines. */
  lemma {:induction false} AppStepsPrint(fs: FileSystem, root: string, apps: seq<string>)
    ensures Printed(AppSteps(fs, root, apps)) == AppsLines(fs, root, apps)
    decreases |apps|
  {
    if |apps| > 0 {
      AppStepsPrint(fs, root, apps[1..]);
      var steps := AppSteps(fs, root, apps);
      assert steps[0] == AppStep(fs, root, apps[0]);
      assert steps[1..] == AppSteps(fs, root, apps[1..]);
      assert AppStep(fs, root, apps[0]).lines == EntryLines(Classify(fs, root, apps[0]));
    }
  }

  /** The steps of the run as written print, while it runs, exactly the corrected report. */
  lemma {:induction false} ReportStepsPrint(fs: FileSystem, categories: seq<string>)
    ensures Printed(ReportSteps(fs, categories)) == Report(fs, categories).lines
    decreases |categories|
  {
    if |categories| > 0 {
      var c := categories[0];
      var root := Root(c);
      var head := [Step(Heading(c), false, false)];
      var apps := AppSteps(fs, root, Listing(fs, root));
      ReportStepsPrint(fs, categories[1..]);
      PrintedAppend(SectionSteps(fs, c), ReportSteps(fs, categories[1..]));
      PrintedAppend(head, apps);
      AppStepsPrint(fs, root, Listing(fs, root));
      assert Printed(head) == Heading(c) by {
        assert Printed(head) == Heading(c) + Printed([]);
      }
      assert Printed(SectionSteps(fs, c)) == SectionLines(fs, c);
    }
  }

  /** Whenever the script as written runs to completion, it prints exactly the corrected report. */
  lemma {:induction false} AsWrittenAgreesWhenCompleted(fs: FileSystem, categories: seq<string>)
    ensures ReportAsWritten(fs, categories).Running? ==>
              ReportAsWritten(fs, categories).printed == Report(fs, categories).lines
  {
    ExecuteAgree(ReportSteps(fs, categories), [], false);
    ReportStepsPrint(fs, categories);
    assert [] + Report(fs, categories).lines == Report(fs, categories).lines;
  }

  /**
   The defect in general: when the first application listed under the first
   category is a file without a marker line, the run as written prints that
   category's heading and table header and then stops with the NameError.
   */
  lemma {:induction false} StopsAtUnmarkedFirstApp(fs: FileSystem, categories: seq<string>)
    requires |categories| > 0
    requires |Listing(fs, Root(categories[0]))| > 0
    requires Classify(fs, Root(categories[0]), Listing(fs, Root(categories[0]))[0]).Listed?
    requires RawHelpText(fs.read(Classify(fs, Root(categories[0]), Listing(fs, Root(categories[0]))[0]).moduleFile)).None?
    ensures ReportAsWritten(fs, categories) == NameError(Heading(categories[0]))
  {
    var c := categories[0];
    var root := Root(c);
    var apps := Listing(fs, root);
    var tail := AppSteps(fs, root, apps[1..]) + ReportSteps(fs, categories[1..]);
    LeadingSteps(fs, categories);
    assert AppStep(fs, root, apps[0]).readsName;
    StopsAtSecondStep(Step(Heading(c), false, false), AppStep(fs, root, apps[0]), tail);
  }

  /** The run's first steps: the first category's heading, then its first application. */
  lemma {:induction false} LeadingSteps(fs: FileSystem, categories: seq<string>)
    requires |categories| > 0
    requires |Listing(fs, Root(categories[0]))| > 0
    ensures var root := Root(categories[0]);
            var apps := Listing(fs, root);
            ReportSteps(fs, categories)
            == [Step(Heading(categories[0]), false, false), AppStep(fs, root, apps[0])]
               + (AppSteps(fs, root, apps[1..]) + ReportSteps(fs, categories[1..]))
  {
    var c := categories[0];
    var root := Root(c);
    var apps := Listing(fs, root);
    ReportStepsCons(fs, categories);
    AppStepsCons(fs, root, apps);
    Regroup(Step(Heading(c), false, false), AppStep(fs, root, apps[0]),
            AppSteps(fs, root, apps[1..]), ReportSteps(fs, categories[1..]));
  }

  lemma ReportStepsCons(fs: FileSystem, categories: seq<string>)
    requires |categories| > 0
    ensures ReportSteps(fs, categories)
            == ([Step(Heading(categories[0]), false, false)] + AppSteps(fs, Root(categories[0]), Listing(fs, Root(categories[0]))))
               + ReportSteps(fs, categories[1..])
  {
  }

  lemma AppStepsCons(fs: FileSystem, root: string, apps: seq<string>)
    requires |apps| > 0
    ensures AppSteps(fs, root, apps) == [AppStep(fs, root, apps[0])] + AppSteps(fs, root, apps[1..])
  {
  }

  lemma Regroup<T>(x: T, y: T, a: seq<T>, b: seq<T>)
    ensures ([x] + ([y] + a)) + b == [x, y] + (a + b)
  {
  }

  /** A first step that leaves the name unbound, then a step that reads it: the run stops after the first step. */
  lemma {:induction false} StopsAtSecondStep(head: Step, first: Step, tail: seq<Step>)
    requires !head.readsName && !head.bindsName && first.readsName
    ensures Execute([head, first] + tail, Running([], false)) == NameError(head.lines)
  {
    var steps := [head, first] + tail;
    assert steps[0] == head && steps[1..][0] == first && steps[1..][1..] == tail;
    var after := Perform(head, Running([], false));
    assert after == Running(head.lines, false) by {
      assert [] + head.lines == head.lines;
    }
    StoppedStaysStopped(tail, NameError(head.lines));
  }

  /** A chemistry root listing one application `foo`, with one version `1.0` whose module file has no marker line. */
  function Example(): FileSystem {
    FileSystem(
      d => if d == "/apps/modules/chemistry" then "foo\n"
           else if d == "/apps/modules/chemistry/foo" then "1.0\n"
           else "",
      f => true,
      f => "module-whatis foo\n")
  }

  lemma {:induction false} ExampleListings()
    ensures Listing(Example(), Root("chemistry")) == ["foo"]
    ensures Listing(Example(), AppDir(Root("chemistry"), "foo")) == ["1.0"]
  {
    assert Root("chemistry") == "/apps/modules/chemistry";
    SplitLinesTerminated(["foo"]);
    assert Terminated(["foo"]) == "foo\n";
    SplitLinesTerminated(["1.0"]);
    assert Terminated(["1.0"]) == "1.0\n";
    assert AppDir(Root("chemistry"), "foo") == "/apps/modules/chemistry/foo";
  }

  lemma {:induction false} ExampleContentUnmarked()
    ensures RawHelpText(Example().read("")) == None
  {
    var content := "module-whatis foo\n";
    assert Example().read("") == content;
    forall q: nat ensures !MarkerAt(content, q, Marker) {
      if q == 0 {
        assert content[0..][..|Marker|][0] == 'm' != Marker[0];
      } else if q < 18 {
        assert content[q - 1] != '\n';
      }
    }
  }

  lemma {:induction false} ExampleEntry()
    ensures Classify(Example(), Root("chemistry"), "foo")
            == Listed(ModuleFile(Root("chemistry"), "foo", "1.0"), ReportRow("foo", ["1.0"], MissingDescription))
  {
    ExampleListings();
    ExampleContentUnmarked();
    assert Example().read(ModuleFile(Root("chemistry"), "foo", "1.0")) == Example().read("");
  }

  lemma {:induction false} ExampleRow(row: ReportRow)
    requires row == ReportRow("foo", ["1.0"], MissingDescription)
    ensures FormatRow(row) == "|foo|1.0|missing description|"
  {
    var text := "|" + row.app + "|" + Join(row.versions, VersionSeparator) + "|" + row.description + "|";
    assert text == "|foo|1.0|missing description|" by {
      assert Join(row.versions, VersionSeparator) == "1.0";
    }
    RowText(row);
  }

  /** The example's run: the chemistry heading, then the one application, whose print reads the unbound name. */
  lemma {:induction false} ExampleSteps()
    ensures ReportSteps(Example(), ["chemistry"])
            == [Step(Heading("chemistry"), false, false), Step(["|foo|1.0|missing description|"], true, false)]
  {
    var fs := Example();
    var root := Root("chemistry");
    ExampleListings();
    ExampleEntry();
    ExampleContentUnmarked();
    ExampleRow(Classify(fs, root, "foo").row);
    assert Example().read(ModuleFile(root, "foo", "1.0")) == Example().read("");
    assert AppStep(fs, root, "foo") == Step(["|foo|1.0|missing description|"], true, false);
    assert AppSteps(fs, root, ["foo"]) == [AppStep(fs, root, "foo")] + AppSteps(fs, root, []);
    assert ["chemistry"][1..] == [];
    assert ReportSteps(fs, ["chemistry"]) == SectionSteps(fs, "chemistry") + ReportSteps(fs, []);
  }

  /**
   The input that shows the defect: the first application processed has no
   marker line, so the script as written stops with a NameError after the
   table header, while the corrected report prints the placeholder row.
   */
  lemma {:induction false} NameErrorOnFirstUnmarkedApp()
    ensures ReportAsWritten(Example(), ["chemistry"]) == NameError(Heading("chemistry"))
    ensures Report(Example(), ["chemistry"]).lines
            == Heading("chemistry") + ["|foo|1.0|missing description|"]
  {
    ExampleListings();
    ExampleEntry();
    ExampleContentUnmarked();
    assert Example().read(ModuleFile(Root("chemistry"), "foo", "1.0")) == Example().read("");
    StopsAtUnmarkedFirstApp(Example(), ["chemistry"]);
    ExampleSteps();
    var steps := ReportSteps(Example(), ["chemistry"]);
    assert steps[1..][1..] == [];
    ReportStepsPrint(Example(), ["chemistry"]);
    assert Printed(steps[1..][1..]) == [];
  }
}

=== FILE: help_text.dfy ===
/**
 Help-text extraction from a module file: the regular expression
 `^set help_text(.*)` in multi-line mode, then the substitution that deletes
 everything up to and including the last `"\t`, with the placeholder
 `missing description` when no line carries the marker.
 */
module HelpText {
  import opened Optional
  import opened Text

  const Marker: string := "set help_text"

  const MissingDescription: string := "missing description"

  /** The three characters quote, backslash, `t` that the substitution strips through. */
  const QuoteTab: string := "\"\\t"

  /** In multi-line mode `^` matches at the start of the text and right after every `\n`. */
  predicate LineStart(s: string, p: nat) {
    p <= |s| && (p == 0 || s[p - 1] == '\n')
  }

  /** The pattern's fixed part `m` matches at position `p`: a line start followed by `m`. */
  predicate MarkerAt(s: string, p: nat, m: string) {
    LineStart(s, p) && HasPrefix(s[p..], m)
  }

  /** Where the line holding position `p` ends: `.` stops at the next `\n` or at the end of the text. */
  function LineEnd(s: string, p: nat): (e: nat)
    requires p <= |s|
    ensures p <= e <= |s|
    ensures e == |s| || s[e] == '\n'
    ensures forall i :: p <= i < e ==> s[i] != '\n'
    decreases |s| - p
  {
    if p == |s| || s[p] == '\n' then p
    else LineEnd(s, p + 1)
  }

  /** The text of a line holds no newline. */
  lemma {:induction false} LineFree(s: string, p: nat)
    requires p <= |s|
    ensures '\n' !in s[p..LineEnd(s, p)]
  {
    var e := LineEnd(s, p);
    forall i | 0 <= i < e - p ensures s[p..e][i] != '\n' {
      assert s[p..e][i] == s[p + i];
    }
  }

  /**
   The first match of `^m` at or after the line start `p`; scanning moves from
   line start to line start, so an occurrence of `m` that does not begin a line
   is never found.
   */
  function FirstMarker(s: string, p: nat, m: string): (r: Option<nat>)
    requires LineStart(s, p)
    ensures r.Some? ==> p <= r.value && MarkerAt(s, r.value, m)
    ensures r.Some? ==> forall q :: p <= q < r.value ==> !MarkerAt(s, q, m)
    ensures r.None? ==> forall q :: p <= q ==> !MarkerAt(s, q, m)
    decreases |s| - p
  {
    if HasPrefix(s[p..], m) then Some(p)
    else
      var e := LineEnd(s, p);
      NoLineStartInside(s, p, e);
      if e == |s| then None
      else FirstMarker(s, e + 1, m)
  }

  /** No line starts strictly inside a line. */
  lemma NoLineStartInside(s: string, p: nat, e: nat)
    requires p <= e <= |s|
    requires forall i :: p <= i < e ==> s[i] != '\n'
    ensures forall q :: p < q <= e ==> !LineStart(s, q)
  {
  }

  /** The rest of the line after the first `m` found from the line start `p` on: `(.*)` of `^m(.*)`. */
  function MatchFrom(s: string, p: nat, m: string): (r: Option<string>)
    requires LineStart(s, p)
    ensures r.Some? ==> '\n' !in r.value
  {
    RestOfLine(s, FirstMarker(s, p, m), |m|)
  }

  /** The rest of the line after the `k` characters at a match position, if there is a match. */
  function RestOfLine(s: string, at: Option<nat>, k: nat): (r: Option<string>)
    requires at.Some? ==> at.value + k <= |s|
    ensures r.Some? ==> '\n' !in r.value
  {
    match at
    case None => None
    case Some(q) =>
      LineFree(s, q + k);
      Some(s[q + k..LineEnd(s, q + k)])
  }

  /**
   `re.findall('^set help_text(.*)', content, re.M)[0]` when there is a match:
   the rest of the first line that begins with the marker.
   */
  function RawHelpText(content: string): (r: Option<string>)
    ensures r.None? <==> forall q :: !MarkerAt(content, q, Marker)
    ensures r.Some? ==> '\n' !in r.value
  {
    MatchFrom(content, 0, Marker)
  }

  /**
   The regular expression's answer stated on positions: when `p` is the first
   line start carrying the marker, the match is the rest of that line.
   */
  lemma {:induction false} RawHelpTextMatch(content: string, p: nat)
    requires MarkerAt(content, p, Marker)
    requires forall q: nat :: q < p ==> !MarkerAt(content, q, Marker)
    ensures p + |Marker| <= |content|
    ensures RawHelpText(content) == Some(content[p + |Marker|..LineEnd(content, p + |Marker|)])
  {
    MatchAtFirstMarker(content, m := Marker, p := p);
  }

  lemma {:induction false} MatchAtFirstMarker(s: string, m: string, p: nat)
    requires MarkerAt(s, p, m)
    requires forall q: nat :: q < p ==> !MarkerAt(s, q, m)
    ensures p + |m| <= |s|
    ensures MatchFrom(s, 0, m) == Some(s[p + |m|..LineEnd(s, p + |m|)])
  {
    var r := FirstMarker(s, 0, m);
    assert r.Some? && r.value == p;
  }

  /** The text as a list of lines: `content.split('\n')`. */
  function Lines(content: string): seq<string> {
    Split(content, '\n')
  }

  /** The remainder after `m` of the first line that starts with it. */
  function FirstMarkedLine(lines: seq<string>, m: string): Option<string>
    decreases |lines|
  {
    if |lines| == 0 then None
    else if HasPrefix(lines[0], m) then Some(lines[0][|m|..])
    else FirstMarkedLine(lines[1..], m)
  }

  /** Index of the first `c` in `t`, or `|t|` */
  function IndexOf(t: string, c: char): (k: nat)
    ensures k <= |t|
    ensures k < |t| ==> t[k] == c
    ensures c !in t[..k]
    decreases |t|
  {
    if |t| == 0 then 0
    else if t[0] == c then 0
    else
      var k := 1 + IndexOf(t[1..], c);
      assert t[..k] == [t[0]] + t[1..][..k - 1];
      k
  }

  /** `t.split(c)` peels off the text before the first `c`. */
  lemma {:induction false} SplitFirstPiece(t: string, c: char)
    ensures Split(t, c) == [t[..IndexOf(t, c)]] + (if IndexOf(t, c) == |t| then [] else Split(t[IndexOf(t, c) + 1..], c))
    decreases |t|
  {
    if |t| > 0 && t[0] != c {
      SplitFirstPiece(t[1..], c);
      var k := IndexOf(t[1..], c);
      assert t[..k + 1] == [t[0]] + t[1..][..k];
      if k < |t[1..]| {
        assert t[1..][k + 1..] == t[k + 2..];
      }
    }
  }

  /** The line holding position `p` as the first piece of the split of `s[p..]`. */
  lemma {:induction false} LineEndIsIndexOf(s: string, p: nat)
    requires p <= |s|
    ensures p + IndexOf(s[p..], '\n') == LineEnd(s, p)
    decreases |s| - p
  {
    if p < |s| && s[p] != '\n' {
      assert s[p..][0] == s[p];
      assert s[p..][1..] == s[p + 1..];
      LineEndIsIndexOf(s, p + 1);
    }
  }

  /** `LineEnd` from any position inside a line finds the same end. */
  lemma {:induction false} LineEndWithin(s: string, p: nat, q: nat)
    requires p <= |s|
    requires p <= q <= LineEnd(s, p)
    ensures LineEnd(s, q) == LineEnd(s, p)
    decreases LineEnd(s, p) - q
  {
    if q < LineEnd(s, p) {
      assert s[q] == s[p..LineEnd(s, p)][q - p];
      LineEndWithin(s, p, q + 1);
    }
  }

  /**
   The position-based reading of the regular expression agrees with the
   line-based one: scanning from the line start `p` finds the rest of the first
   line of `s[p..]` that starts with `m`, for any newline-free `m`.
   */
  lemma {:induction false} FirstMarkerMatchesLines(s: string, p: nat, m: string)
    requires LineStart(s, p) && '\n' !in m
    ensures MatchFrom(s, p, m) == FirstMarkedLine(Lines(s[p..]), m)
    decreases |s| - p
  {
    var e := LineEnd(s, p);
    if e < |s| {
      FirstMarkerMatchesLines(s, e + 1, m);
    }
    MatchStep(s, p, m);
  }

  /** One line of the scan: both readings treat the line at `p` alike and agree on the rest. */
  lemma {:induction false} MatchStep(s: string, p: nat, m: string)
    requires LineStart(s, p) && '\n' !in m
    requires LineEnd(s, p) < |s| ==>
               MatchFrom(s, LineEnd(s, p) + 1, m) == FirstMarkedLine(Lines(s[LineEnd(s, p) + 1..]), m)
    ensures MatchFrom(s, p, m) == FirstMarkedLine(Lines(s[p..]), m)
  {
    if HasPrefix(s[p..LineEnd(s, p)], m) {
      MarkedLineMatches(s, p, m);
    } else {
      UnmarkedLineSkipped(s, p, m);
    }
  }

  /** A line that starts with `m` is the match, in both readings. */
  lemma {:induction false} MarkedLineMatches(s: string, p: nat, m: string)
    requires LineStart(s, p) && '\n' !in m
    requires HasPrefix(s[p..LineEnd(s, p)], m)
    ensures MatchFrom(s, p, m) == Some(s[p + |m|..LineEnd(s, p)])
    ensures FirstMarkedLine(Lines(s[p..]), m) == Some(s[p + |m|..LineEnd(s, p)])
  {
    MarkedLineFound(s, p, m);
    MarkedLineFirst(s, p, m);
  }

  lemma {:induction false} MarkedLineFound(s: string, p: nat, m: string)
    requires LineStart(s, p) && '\n' !in m
    requires HasPrefix(s[p..LineEnd(s, p)], m)
    ensures MatchFrom(s, p, m) == Some(s[p + |m|..LineEnd(s, p)])
  {
    MarkerWithinLine(s, p, m);
    assert FirstMarker(s, p, m) == Some(p);
    LineEndWithin(s, p, p + |m|);
  }

  lemma {:induction false} MarkedLineFirst(s: string, p: nat, m: string)
    requires p <= |s|
    requires HasPrefix(s[p..LineEnd(s, p)], m)
    ensures FirstMarkedLine(Lines(s[p..]), m) == Some(s[p + |m|..LineEnd(s, p)])
  {
    var e := LineEnd(s, p);
    var line := s[p..e];
    var rest := if e == |s| then [] else Lines(s[e + 1..]);
    LinesAt(s, p);
    var lines := [line] + rest;
    assert lines[0] == line;
    assert line[|m|..] == s[p + |m|..e];
  }

  /** A line that does not start with `m` is passed over, in both readings. */
  lemma {:induction false} UnmarkedLineSkipped(s: string, p: nat, m: string)
    requires LineStart(s, p) && '\n' !in m
    requires !HasPrefix(s[p..LineEnd(s, p)], m)
    ensures LineEnd(s, p) == |s| ==> MatchFrom(s, p, m) == None && FirstMarkedLine(Lines(s[p..]), m) == None
    ensures LineEnd(s, p) < |s| ==>
              && MatchFrom(s, p, m) == MatchFrom(s, LineEnd(s, p) + 1, m)
              && FirstMarkedLine(Lines(s[p..]), m) == FirstMarkedLine(Lines(s[LineEnd(s, p) + 1..]), m)
  {
    MarkerWithinLine(s, p, m);
    UnmarkedLineScanned(s, p, m);
    UnmarkedLinePassed(s, p, m);
  }

  lemma {:induction false} UnmarkedLineScanned(s: string, p: nat, m: string)
    requires LineStart(s, p) && !HasPrefix(s[p..], m)
    ensures LineEnd(s, p) == |s| ==> MatchFrom(s, p, m) == None
    ensures LineEnd(s, p) < |s| ==> MatchFrom(s, p, m) == MatchFrom(s, LineEnd(s, p) + 1, m)
  {
    ScanSkipsLine(s, p, m);
  }

  lemma ScanSkipsLine(s: string, p: nat, m: string)
    requires LineStart(s, p) && !HasPrefix(s[p..], m)
    ensures LineEnd(s, p) == |s| ==> FirstMarker(s, p, m) == None
    ensures LineEnd(s, p) < |s| ==> FirstMarker(s, p, m) == FirstMarker(s, LineEnd(s, p) + 1, m)
  {
  }

  lemma {:induction false} UnmarkedLinePassed(s: string, p: nat, m: string)
    requires p <= |s|
    requires !HasPrefix(s[p..LineEnd(s, p)], m)
    ensures FirstMarkedLine(Lines(s[p..]), m)
            == if LineEnd(s, p) == |s| then None else FirstMarkedLine(Lines(s[LineEnd(s, p) + 1..]), m)
  {
    var e := LineEnd(s, p);
    var line := s[p..e];
    var rest := if e == |s| then [] else Lines(s[e + 1..]);
    LinesAt(s, p);
    var lines := [line] + rest;
    assert lines[0] == line && lines[1..] == rest;
  }

  /** The lines of `s[p..]` are the line at `p` followed by the lines after its newline. */
  lemma {:induction false} LinesAt(s: string, p: nat)
    requires p <= |s|
    ensures Lines(s[p..]) == [s[p..LineEnd(s, p)]]
      + (if LineEnd(s, p) == |s| then [] else Lines(s[LineEnd(s, p) + 1..]))
  {
    var e := LineEnd(s, p);
    var t := s[p..];
    LineEndIsIndexOf(s, p);
    SplitFirstPiece(t, '\n');
    assert IndexOf(t, '\n') == e - p;
    assert t[..e - p] == s[p..e];
    if e < |s| {
      assert t[e - p + 1..] == s[e + 1..];
    }
  }

  /** A newline-free `m` starts the text at `p` exactly when it starts the line at `p`. */
  lemma {:induction false} MarkerWithinLine(s: string, p: nat, m: string)
    requires p <= |s| && '\n' !in m
    ensures HasPrefix(s[p..], m) <==> HasPrefix(s[p..LineEnd(s, p)], m)
  {
    var e := LineEnd(s, p);
    if HasPrefix(s[p..], m) {
      assert s[p..e][..|m|] == s[p..][..|m|];
    }
    if HasPrefix(s[p..e], m) {
      assert s[p..][..|m|] == s[p..e][..|m|];
    }
  }

  /** The extracted remainder is the rest of the first line of the text that starts with the marker. */
  lemma {:induction false} RawHelpTextIsFirstMarkedLine(content: string)
    ensures RawHelpText(content) == FirstMarkedLine(Lines(content), Marker)
  {
    assert '\n' !in Marker;
    FirstMarkerMatchesLines(content, 0, Marker);
    assert content[0..] == content;
  }

  /** `"\t` occurs at index `i` */
  predicate QuoteTabAt(s: string, i: nat) {
    i + 3 <= |s| && s[i] == '"' && s[i + 1] == '\\' && s[i + 2] == 't'
  }

  predicate HasQuoteTab(s: string) {
    exists i: nat :: i < |s| && QuoteTabAt(s, i)
  }

  /** The last occurrence of `"\t` that ends at or before `n`. */
  function LastQuoteTab(s: string, n: nat): (r: Option<nat>)
    requires n <= |s|
    ensures r.Some? ==> r.value + 3 <= n && QuoteTabAt(s, r.value)
    ensures r.Some? ==> forall j: nat :: r.value < j && j + 3 <= n ==> !QuoteTabAt(s, j)
    ensures r.None? ==> forall j: nat :: j + 3 <= n ==> !QuoteTabAt(s, j)
    decreases n
  {
    if n < 3 then None
    else if QuoteTabAt(s, n - 3) then Some(n - 3)
    else LastQuoteTab(s, n - 1)
  }

  /**
   `re.sub('.*"\\t', '', raw)`: `raw` holds no newline, so the greedy `.*`
   reaches the last `"\t` and the one match deletes everything through it;
   without an occurrence the text is unchanged.
   */
  function StripQuoteTab(raw: string): (r: string)
    ensures !HasQuoteTab(raw) ==> r == raw
    ensures HasQuoteTab(raw) ==> exists i: nat ::
      && QuoteTabAt(raw, i)
      && (forall j: nat :: i < j ==> !QuoteTabAt(raw, j))
      && r == raw[i + 3..]
    ensures |r| <= |raw| && r == raw[|raw| - |r|..]
    ensures !HasQuoteTab(r)
  {
    match LastQuoteTab(raw, |raw|)
    case None => raw
    case Some(i) =>
      var r := raw[i + 3..];
      assert !HasQuoteTab(r) by {
        forall k: nat | QuoteTabAt(r, k) ensures false {
          assert QuoteTabAt(raw, i + 3 + k);
        }
      }
      r
  }

  /** Stripping is idempotent. */
  lemma StripQuoteTabIdempotent(raw: string)
    ensures StripQuoteTab(StripQuoteTab(raw)) == StripQuoteTab(raw)
  {
  }

  /** The description cell of a module file's row. */
  function Description(content: string): (d: string)
    ensures RawHelpText(content).None? ==> d == MissingDescription
    ensures RawHelpText(content).Some? ==> d == StripQuoteTab(RawHelpText(content).value)
    ensures '\n' !in d
  {
    match RawHelpText(content)
    case None => MissingDescription
    case Some(raw) =>
      var d := StripQuoteTab(raw);
      assert d == raw[|raw| - |d|..];
      d
  }
}

=== FILE: pie_chart.dfy ===
/**
 The part of the pie chart that is not drawing: categories with no
 applications are deleted from the parallel label and count lists before the
 wedges are sized.
 */
module PieChart {

  /** `[i for i, e in enumerate(counts) if e == 0]`, restricted to indexes from `k` on. */
  function ZerosFrom(counts: seq<nat>, k: nat): (z: seq<nat>)
    requires k <= |counts|
    ensures forall m :: 0 <= m < |z| ==> k <= z[m] < |counts| && counts[z[m]] == 0
    ensures forall i :: k <= i < |counts| && counts[i] == 0 ==> i in z
    ensures forall a, b :: 0 <= a < b < |z| ==> z[a] < z[b]
    decreases |counts| - k
  {
    if k == |counts| then []
    else (if counts[k] == 0 then [k] else []) + ZerosFrom(counts, k + 1)
  }

  /** The indexes of the zero counts, in increasing order. */
  function ZeroIndexes(counts: seq<nat>): seq<nat> {
    ZerosFrom(counts, 0)
  }

  /** The entries of `s` whose count is not zero, in their original order. */
  function Keep<T>(s: seq<T>, counts: seq<nat>): seq<T>
    requires |s| == |counts|
    decreases |s|
  {
    if |s| == 0 then []
    else (if counts[0] == 0 then [] else [s[0]]) + Keep(s[1..], counts[1..])
  }

  /** `del s[i]` */
  function DeleteAt<T>(s: seq<T>, i: nat): (r: seq<T>)
    requires i < |s|
    ensures |r| == |s| - 1
    ensures forall j :: 0 <= j < i ==> r[j] == s[j]
    ensures forall j :: i <= j < |r| ==> r[j] == s[j + 1]
  {
    s[..i] + s[i + 1..]
  }

  lemma {:induction false} KeepAppend<T>(a: seq<T>, ca: seq<nat>, b: seq<T>, cb: seq<nat>)
    requires |a| == |ca| && |b| == |cb|
    ensures Keep(a + b, ca + cb) == Keep(a, ca) + Keep(b, cb)
    decreases |a|
  {
    if |a| == 0 {
      assert a + b == b && ca + cb == cb;
    } else {
      assert (a + b)[1..] == a[1..] + b;
      assert (ca + cb)[1..] == ca[1..] + cb;
      KeepAppend(a[1..], ca[1..], b, cb);
    }
  }

  lemma {:induction false} KeepNoZeros<T>(s: seq<T>, counts: seq<nat>)
    requires |s| == |counts|
    requires forall i :: 0 <= i < |counts| ==> counts[i] != 0
    ensures Keep(s, counts) == s
    decreases |s|
  {
    if |s| > 0 {
      KeepNoZeros(s[1..], counts[1..]);
    }
  }

  /** The position from which, after the deletions of `zeros[k..]`, the list is already filtered. */
  function Bound(zeros: seq<nat>, k: nat, n: nat): nat
    requires k <= |zeros|
  {
    if k < |zeros| then zeros[k] else n
  }

  /** Between two consecutive zero indexes every count is non-zero. */
  lemma NoZeroBetween(counts: seq<nat>, k: nat, i: nat)
    requires k <= |ZeroIndexes(counts)|
    requires (if k == 0 then 0 else ZeroIndexes(counts)[k - 1] + 1) <= i < Bound(ZeroIndexes(counts), k, |counts|)
    requires i < |counts|
    ensures counts[i] != 0
  {
  }

  /**
   One deletion of the loop: deleting the zero at `z` from a list that is
   already filtered from `b` on, with no zero strictly between them, leaves it
   filtered from `z` on.
   */
  lemma {:induction false} DeleteStep<T>(s: seq<T>, counts: seq<nat>, z: nat, b: nat)
    requires |s| == |counts|
    requires z < b <= |s| && counts[z] == 0
    requires forall i :: z < i < b ==> counts[i] != 0
    ensures DeleteAt(s[..b] + Keep(s[b..], counts[b..]), z) == s[..z] + Keep(s[z..], counts[z..])
  {
    var mid, cmid := s[z + 1..b], counts[z + 1..b];
    forall i | 0 <= i < |cmid| ensures cmid[i] != 0 {
      assert cmid[i] == counts[z + 1 + i];
    }
    KeepNoZeros(mid, cmid);
    KeepAppend(mid, cmid, s[b..], counts[b..]);
    assert s[z + 1..] == mid + s[b..];
    assert counts[z + 1..] == cmid + counts[b..];
    assert Keep(s[z..], counts[z..]) == Keep(s[z + 1..], counts[z + 1..]) by {
      assert s[z..][1..] == s[z + 1..];
      assert counts[z..][1..] == counts[z + 1..];
    }
    var x := s[..b] + Keep(s[b..], counts[b..]);
    assert x[..z] == s[..z];
    assert x[z + 1..] == mid + Keep(s[b..], counts[b..]);
  }

  /** Filtering a list is filtering its two halves around any split point. */
  lemma {:induction false} KeepSplit<T>(s: seq<T>, counts: seq<nat>, b: nat)
    requires |s| == |counts| && b <= |s|
    ensures Keep(s, counts) == Keep(s[..b], counts[..b]) + Keep(s[b..], counts[b..])
  {
    KeepAppend(s[..b], counts[..b], s[b..], counts[b..]);
    assert s[..b] + s[b..] == s;
    assert counts[..b] + counts[b..] == counts;
  }

  /** A prefix without zero counts survives filtering whole. */
  lemma {:induction false} KeepPrefix<T>(s: seq<T>, counts: seq<nat>, b: nat)
    requires |s| == |counts| && b <= |s|
    requires forall i :: 0 <= i < b ==> counts[i] != 0
    ensures Keep(s[..b], counts[..b]) == s[..b]
  {
    var cpre := counts[..b];
    forall i | 0 <= i < |cpre| ensures cpre[i] != 0 {
      assert cpre[i] == counts[i];
    }
    KeepNoZeros(s[..b], cpre);
  }

  /** After the last deletion the list is `Keep` of the original: no zero precedes `b`. */
  lemma {:induction false} DeleteDone<T>(s: seq<T>, counts: seq<nat>, b: nat)
    requires |s| == |counts| && b <= |s|
    requires forall i :: 0 <= i < b ==> counts[i] != 0
    ensures s[..b] + Keep(s[b..], counts[b..]) == Keep(s, counts)
  {
    KeepPrefix(s, counts, b);
    KeepSplit(s, counts, b);
  }

  /**
   Lines 44-49: collect the zero indexes, then delete them from both lists in
   descending order, so that no deletion shifts an index still to be deleted.
   The result is exactly the filtered pair of lists.
   */
  method DropZeroEntries(labels: seq<string>, counts: seq<nat>) returns (ls: seq<string>, cs: seq<nat>)
    requires |labels| == |counts|
    ensures ls == Keep(labels, counts)
    ensures cs == Keep(counts, counts)
  {
    var zeros := ZeroIndexes(counts);
    ls, cs := labels, counts;
    var k := |zeros|;
    while k > 0
      invariant 0 <= k <= |zeros|
      invariant Bound(zeros, k, |counts|) <= |counts|
      invariant ls == labels[..Bound(zeros, k, |counts|)]
                      + Keep(labels[Bound(zeros, k, |counts|)..], counts[Bound(zeros, k, |counts|)..])
      invariant cs == counts[..Bound(zeros, k, |counts|)]
                      + Keep(counts[Bound(zeros, k, |counts|)..], counts[Bound(zeros, k, |counts|)..])
    {
      k := k - 1;
      var z, b := zeros[k], Bound(zeros, k + 1, |counts|);
      assert z < b by {
        if k + 1 < |zeros| {
          assert zeros[k] < zeros[k + 1];
        }
      }
      forall i | z < i < b ensures counts[i] != 0 {
        NoZeroBetween(counts, k + 1, i);
      }
      DeleteStep(labels, counts, z, b);
      DeleteStep(counts, counts, z, b);
      ls := DeleteAt(ls, z);
      cs := DeleteAt(cs, z);
    }
    var b := Bound(zeros, 0, |counts|);
    forall i | 0 <= i < b ensures counts[i] != 0 {
      NoZeroBetween(counts, 0, i);
    }
    DeleteDone(labels, counts, b);
    DeleteDone(counts, counts, b);
  }

  /** Filtering removes exactly the zero counts: no zero survives and every other count keeps its multiplicity. */
  lemma {:induction false} KeepRemovesExactlyZeros(counts: seq<nat>)
    ensures 0 !in Keep(counts, counts)
    ensures forall x :: x != 0 ==> multiset(Keep(counts, counts))[x] == multiset(counts)[x]
    ensures |Keep(counts, counts)| == |counts| - |ZeroIndexes(counts)|
    decreases |counts|
  {
    if |counts| > 0 {
      KeepRemovesExactlyZeros(counts[1..]);
      assert counts == [counts[0]] + counts[1..];
      ZerosShift(counts);
    }
  }

  /** The zero indexes of `counts` are those of `counts[1..]` shifted by one, plus `0` when `counts[0]` is zero. */
  lemma {:induction false} ZerosShift(counts: seq<nat>)
    requires |counts| > 0
    ensures |ZeroIndexes(counts)| == (if counts[0] == 0 then 1 else 0) + |ZeroIndexes(counts[1..])|
  {
    ZerosFromShift(counts, 1);
  }

  lemma {:induction false} ZerosFromShift(counts: seq<nat>, k: nat)
    requires 1 <= k <= |counts|
    ensures |ZerosFrom(counts, k)| == |ZerosFrom(counts[1..], k - 1)|
    decreases |counts| - k
  {
    if k < |counts| {
      assert counts[1..][k - 1] == counts[k];
      ZerosFromShift(counts, k + 1);
    }
  }

  /** Pairs the two lists position by position. */
  function Zip(labels: seq<string>, counts: seq<nat>): (z: seq<(string, nat)>)
    requires |labels| == |counts|
    ensures |z| == |labels|
    ensures forall i :: 0 <= i < |z| ==> z[i] == (labels[i], counts[i])
    decreases |labels|
  {
    if |labels| == 0 then []
    else [(labels[0], counts[0])] + Zip(labels[1..], counts[1..])
  }

  /** The (label, count) pairs with a non-zero count, in their original order. */
  function NonZeroPairs(pairs: seq<(string, nat)>): seq<(string, nat)>
    decreases |pairs|
  {
    if |pairs| == 0 then []
    else (if pairs[0].1 == 0 then [] else [pairs[0]]) + NonZeroPairs(pairs[1..])
  }

  /**
   The filtered lists stay aligned: pairing them up gives exactly the
   original (label, count) pairs with a non-zero count, in order.
   */
  lemma {:induction false} KeepKeepsPairsAligned(labels: seq<string>, counts: seq<nat>)
    requires |labels| == |counts|
    ensures |Keep(labels, counts)| == |Keep(counts, counts)|
    ensures Zip(Keep(labels, counts), Keep(counts, counts)) == NonZeroPairs(Zip(labels, counts))
    decreases |labels|
  {
    if |labels| > 0 {
      KeepKeepsPairsAligned(labels[1..], counts[1..]);
      var l, c := Keep(labels[1..], counts[1..]), Keep(counts[1..], counts[1..]);
      if counts[0] != 0 {
        assert Zip([labels[0]] + l, [counts[0]] + c) == [(labels[0], counts[0])] + Zip(l, c);
      }
    }
  }

  /** An entry survives exactly when its count is non-zero. */
  lemma {:induction false} KeepMembership<T>(s: seq<T>, counts: seq<nat>)
    requires |s| == |counts|
    ensures forall i :: 0 <= i < |s| && counts[i] != 0 ==> s[i] in Keep(s, counts)
    ensures forall x :: x in Keep(s, counts) ==> exists i :: 0 <= i < |s| && s[i] == x && counts[i] != 0
    decreases |s|
  {
    if |s| > 0 {
      KeepMembership(s[1..], counts[1..]);
      forall x | x in Keep(s, counts)
        ensures exists i :: 0 <= i < |s| && s[i] == x && counts[i] != 0
      {
        if x !in Keep(s[1..], counts[1..]) {
          assert s[0] == x && counts[0] != 0;
        } else {
          var i :| 0 <= i < |s[1..]| && s[1..][i] == x && counts[1..][i] != 0;
          assert s[i + 1] == x;
        }
      }
      forall i | 0 <= i < |s| && counts[i] != 0 ensures s[i] in Keep(s, counts) {
        if i > 0 {
          assert s[1..][i - 1] == s[i];
        }
      }
    }
  }
}

=== FILE: program.dfy ===
/**
 One run of the script: the theme choice selects the categories, the report
 is printed, and the categories with applications are handed to the chart.
 */
module Program {
  import opened Catalog
  import opened Aggregator
  import opened PieChart

  /** The printed report and the labels and sizes of the chart's wedges. */
  datatype Outcome = Outcome(stdout: seq<string>, chartLabels: seq<string>, chartCounts: seq<nat>)

  /**
   The chart shows one wedge per category whose root listing is not empty,
   labelled with that category and sized by its count, in category order;
   every other category is printed but left out of the chart.
   */
  method Run(fs: FileSystem, t: ThemeArg) returns (o: Outcome)
    ensures o.stdout == Report(fs, Themes(t)).lines
    ensures |o.chartLabels| == |o.chartCounts|
    ensures 0 !in o.chartCounts
    ensures forall c :: c in o.chartLabels <==> c in Themes(t) && |Listing(fs, Root(c))| > 0
    ensures Zip(o.chartLabels, o.chartCounts) == NonZeroPairs(Zip(Themes(t), Report(fs, Themes(t)).counts))
  {
    var categories := Themes(t);
    var report := Report(fs, categories);
    var labels, counts := DropZeroEntries(categories, report.counts);
    ChartWedges(fs, categories);
    o := Outcome(report.lines, labels, counts);
  }

  /** The filtered lists describe exactly the categories with a non-empty root listing. */
  lemma {:induction false} ChartWedges(fs: FileSystem, categories: seq<string>)
    ensures var counts := Report(fs, categories).counts;
            && |Keep(categories, counts)| == |Keep(counts, counts)|
            && 0 !in Keep(counts, counts)
            && (forall c :: c in Keep(categories, counts) <==> c in categories && |Listing(fs, Root(c))| > 0)
            && Zip(Keep(categories, counts), Keep(counts, counts)) == NonZeroPairs(Zip(categories, counts))
  {
    var counts := Report(fs, categories).counts;
    KeepKeepsPairsAligned(categories, counts);
    KeepRemovesExactlyZeros(counts);
    KeepMembership(categories, counts);
    forall c ensures c in Keep(categories, counts) <==> c in categories && |Listing(fs, Root(c))| > 0 {
      if c in categories && |Listing(fs, Root(c))| > 0 {
        var i :| 0 <= i < |categories| && categories[i] == c;
        assert counts[i] != 0;
      }
    }
  }
}

=== FILE: text.dfy ===
/** Option type used for "absent" results (no marker line, no occurrence, rejected argument). */
module Optional {
  datatype Option<+T> = None | Some(value: T)
}

/**
 String operations the script relies on, each written after the Python 2
 built-in it stands for: `sep.join`, `str.split` on one character,
 `str.split(' ,')` and `str.splitlines`.
 */
module Text {

  /** `s.startswith(p)` */
  predicate HasPrefix(s: string, p: string) {
    |p| <= |s| && s[..|p|] == p
  }

  /** `sep.join(parts)` */
  function Join(parts: seq<string>, sep: string): string
    decreases |parts|
  {
    if |parts| == 0 then ""
    else if |parts| == 1 then parts[0]
    else parts[0] + sep + Join(parts[1..], sep)
  }

  /** `s.split(c)` for a one-character separator `c`: every piece is free of `c`. */
  function Split(s: string, c: char): (r: seq<string>)
    ensures |r| >= 1
    ensures forall i :: 0 <= i < |r| ==> c !in r[i]
    decreases |s|
  {
    if |s| == 0 then [""]
    else
      var t := Split(s[1..], c);
      if s[0] == c then [""] + t else [[s[0]] + t[0]] + t[1..]
  }

  /** `c` does not occur in `s` */
  lemma {:induction false} SplitNoSeparator(s: string, c: char)
    requires c !in s
    ensures Split(s, c) == [s]
    decreases |s|
  {
    if |s| > 0 {
      assert c !in s[1..];
      SplitNoSeparator(s[1..], c);
      assert [s[0]] + s[1..] == s;
    }
  }

  /** Splitting `a + [c] + rest` at `c` cuts exactly after `a` when `a` is free of `c`. */
  lemma {:induction false} SplitAfterPiece(a: string, c: char, rest: string)
    requires c !in a
    ensures Split(a + [c] + rest, c) == [a] + Split(rest, c)
    decreases |a|
  {
    var s := a + [c] + rest;
    if |a| == 0 {
      assert s == [c] + rest;
      assert s[1..] == rest;
    } else {
      assert s[1..] == a[1..] + [c] + rest;
      assert c !in a[1..];
      SplitAfterPiece(a[1..], c, rest);
      assert [a[0]] + a[1..] == a;
    }
  }

  /** `c` occurs in no piece */
  predicate PiecesFree(parts: seq<string>, c: char) {
    forall i :: 0 <= i < |parts| ==> c !in parts[i]
  }

  /**
   Round trip of `c.join` and `.split(c)`: a non-empty list of pieces that do
   not contain the separator is recovered exactly.
   */
  lemma {:induction false} SplitJoin(parts: seq<string>, c: char)
    requires |parts| >= 1
    requires PiecesFree(parts, c)
    ensures Split(Join(parts, [c]), c) == parts
    decreases |parts|
  {
    if |parts| == 1 {
      SplitNoSeparator(parts[0], c);
    } else {
      assert PiecesFree(parts[1..], c) by {
        forall i | 0 <= i < |parts[1..]| ensures c !in parts[1..][i] {
          assert parts[1..][i] == parts[i + 1];
        }
      }
      SplitJoin(parts[1..], c);
      assert c !in parts[0];
      SplitAfterPiece(parts[0], c, Join(parts[1..], [c]));
      assert [parts[0]] + parts[1..] == parts;
    }
  }

  /** A character absent from every piece and from the separator is absent from the join. */
  lemma {:induction false} JoinExcludes(parts: seq<string>, sep: string, c: char)
    requires PiecesFree(parts, c)
    requires c !in sep
    ensures c !in Join(parts, sep)
    decreases |parts|
  {
    if |parts| > 1 {
      assert PiecesFree(parts[1..], c) by {
        forall i | 0 <= i < |parts[1..]| ensures c !in parts[1..][i] {
          assert parts[1..][i] == parts[i + 1];
        }
      }
      JoinExcludes(parts[1..], sep, c);
      assert c !in parts[0];
    }
  }

  /** The two-character separator `' ,'` the script joins version names with. */
  const VersionSeparator: string := " ,"

  /** `s` contains `' ,'` */
  predicate ContainsVersionSeparator(s: string)
    decreases |s|
  {
    |s| >= 2 && ((s[0] == ' ' && s[1] == ',') || ContainsVersionSeparator(s[1..]))
  }

  /** `s.split(' ,')`; the separator cannot overlap itself, so a left-to-right scan is exact. */
  function SplitVersions(s: string): (r: seq<string>)
    ensures |r| >= 1
    decreases |s|
  {
    if |s| < 2 then [s]
    else if s[0] == ' ' && s[1] == ',' then [""] + SplitVersions(s[2..])
    else
      var t := SplitVersions(s[1..]);
      [[s[0]] + t[0]] + t[1..]
  }

  lemma {:induction false} SplitVersionsNoSeparator(s: string)
    requires !ContainsVersionSeparator(s)
    ensures SplitVersions(s) == [s]
    decreases |s|
  {
    if |s| >= 2 {
      SplitVersionsNoSeparator(s[1..]);
      assert [s[0]] + s[1..] == s;
    }
  }

  lemma {:induction false} SplitVersionsAfterPiece(a: string, rest: string)
    requires !ContainsVersionSeparator(a)
    ensures SplitVersions(a + VersionSeparator + rest) == [a] + SplitVersions(rest)
    decreases |a|
  {
    var s := a + VersionSeparator + rest;
    if |a| == 0 {
      assert s == " ," + rest;
      assert s[2..] == rest;
    } else {
      assert s[1..] == a[1..] + VersionSeparator + rest;
      assert s[0] == a[0];
      if |a| == 1 {
        assert s[1] == ' ';
      } else {
        assert s[1] == a[1];
        assert !(a[0] == ' ' && a[1] == ',');
      }
      SplitVersionsAfterPiece(a[1..], rest);
      assert [a[0]] + a[1..] == a;
    }
  }

  /** No version name contains the separator */
  predicate VersionsSeparable(vs: seq<string>) {
    forall i :: 0 <= i < |vs| ==> !ContainsVersionSeparator(vs[i])
  }

  /**
   Round trip of `' ,'.join(versions)`: the joined cell of a table row can be
   split back into the listed versions, in order.
   */
  lemma {:induction false} SplitJoinVersions(vs: seq<string>)
    requires |vs| >= 1
    requires VersionsSeparable(vs)
    ensures SplitVersions(Join(vs, VersionSeparator)) == vs
    decreases |vs|
  {
    if |vs| == 1 {
      SplitVersionsNoSeparator(vs[0]);
    } else {
      assert VersionsSeparable(vs[1..]) by {
        forall i | 0 <= i < |vs[1..]| ensures !ContainsVersionSeparator(vs[1..][i]) {
          assert vs[1..][i] == vs[i + 1];
        }
      }
      SplitJoinVersions(vs[1..]);
      assert !ContainsVersionSeparator(vs[0]);
      SplitVersionsAfterPiece(vs[0], Join(vs[1..], VersionSeparator));
      assert [vs[0]] + vs[1..] == vs;
    }
  }

  /** Line boundaries of Python 2's `str.splitlines`: `\n`, `\r` and the pair `\r\n`. */
  predicate IsLineBreak(ch: char) {
    ch == '\n' || ch == '\r'
  }

  /** No line-break character in `s` */
  predicate SingleLine(s: string) {
    forall i :: 0 <= i < |s| ==> !IsLineBreak(s[i])
  }

  /**
   Python 2 `str.splitlines()`: splits at `\n`, `\r` and `\r\n`, keeps empty
   lines between breaks, drops the empty piece after a final break, and maps
   the empty string to the empty list. `current` is the line read so far.
   */
  function SplitLinesFrom(s: string, current: string): (r: seq<string>)
    requires SingleLine(current)
    ensures forall i :: 0 <= i < |r| ==> SingleLine(r[i])
    decreases |s|
  {
    if |s| == 0 then (if current == "" then [] else [current])
    else if s[0] == '\n' then [current] + SplitLinesFrom(s[1..], "")
    else if s[0] == '\r' then
      if |s| > 1 && s[1] == '\n' then [current] + SplitLinesFrom(s[2..], "")
      else [current] + SplitLinesFrom(s[1..], "")
    else SplitLinesFrom(s[1..], current + [s[0]])
  }

  function SplitLines(s: string): (r: seq<string>)
    ensures forall i :: 0 <= i < |r| ==> SingleLine(r[i])
  {
    SplitLinesFrom(s, "")
  }

  /** The text `ls -1` prints: every name followed by a newline. */
  function Terminated(names: seq<string>): string
    decreases |names|
  {
    if |names| == 0 then "" else names[0] + "\n" + Terminated(names[1..])
  }

  lemma {:induction false} SplitLinesAfterName(current: string, name: string, rest: string)
    requires SingleLine(current)
    requires SingleLine(name)
    ensures SplitLinesFrom(name + "\n" + rest, current) == [current + name] + SplitLinesFrom(rest, "")
    decreases |name|
  {
    var s := name + "\n" + rest;
    if |name| == 0 {
      assert s == "\n" + rest;
      assert s[0] == '\n' && s[1..] == rest;
      assert current + name == current;
    } else {
      assert s[0] == name[0];
      assert !IsLineBreak(name[0]);
      assert s[1..] == name[1..] + "\n" + rest;
      assert SingleLine(current + [name[0]]);
      SplitLinesAfterName(current + [name[0]], name[1..], rest);
      assert current + [name[0]] + name[1..] == current + name;
    }
  }

  /**
   Round trip of the `ls -1` format: newline-terminated names without line
   breaks are split back into exactly those names, so the number of lines is
   the number of names.
   */
  lemma {:induction false} SplitLinesTerminated(names: seq<string>)
    requires forall i :: 0 <= i < |names| ==> SingleLine(names[i])
    ensures SplitLines(Terminated(names)) == names
    decreases |names|
  {
    if |names| > 0 {
      SplitLinesAfterName("", names[0], Terminated(names[1..]));
      assert "" + names[0] == names[0];
      SplitLinesTerminated(names[1..]);
      assert [names[0]] + names[1..] == names;
    }
  }
}
